=== FILE: README.md ===
# A verified model of the Lsp calculator's evaluator

The Lsp calculator reads a line in Polish notation, such as `+ 1 (* 2 3)`. It parses the line
with the mpc parser-combinator library and walks the resulting tree. The walk produces
either a `long` or one of three errors, and the result is printed. This project models
that evaluator in prompt.c:

- the value type `lval`, built by `lval_num` and `lval_err` (module `Values`, datatype `Lval`);
- the combiner `eval_op` and the left fold the evaluator builds from it (`Values.EvalOp`, `Values.FoldOps`);
- the `strtol` conversion of a numeral and the `%li` text of a number (module `Numerals`);
- the text `lval_print` and `lval_println` write (module `Render`);
- the mpc tree (`Ast.Node`), the `strstr` tag tests `eval` makes, and the expression a walkable
  tree denotes (module `Ast`);
- `eval` itself, as the recursive walk it is in C (`Evaluator.Eval`, `Evaluator.Loop`), proved
  equal to a reference semantics on expressions (`Evaluator.Value`);
- the grammar given to `mpca_lang`, as predicates on trees, with a round trip between the
  grammar's trees and the expressions they denote (module `Grammar`);
- whole input lines and worked examples (module `Calculator`).

Choices the C code forces on the model:

- **`long` depends on the platform.** Its range is a parameter `lim: LongLimits`. The two
  constants are `Lp64` (64 bits, Linux and Mac) and `Llp64` (32 bits, the `_WIN32` branch).
- **Signed overflow is undefined behaviour.** This covers `+`, `-` and `*`, and
  `LONG_MIN / -1`. The model gives these no result: `StepNoOverflow`, `FoldNoOverflow` and
  `NoOverflow` are preconditions. Nothing wraps around.
- **C's `/` truncates toward zero.** `TruncDiv` implements this, and `TruncQuotientUnique`
  proves that the truncated quotient is unique.
- **The error guard is a parameter.** `eval_op` tests `x.type == LVAL_ERR` twice (lines
  106-107). The `Guard` parameter covers both readings:
  - `LeftOnly` is the code as written;
  - `BothOperands` is what the comment on line 105 describes.

  Under `LeftOnly`, an error operand on the right reaches the arithmetic. Its `num` field was
  never set by `lval_err`. The model reads that field from `junk`, an arbitrary
  `Path -> int` keyed by the operand's position in the tree. `junk` may return any integer,
  which is a superset of the `long` values the field could hold. Every result holds for every
  `junk`. The evaluation, walk, grammar and BAD_OP results hold under both guards. The
  error-propagation and junk-independence results (`Values.FoldPropagatesErrors`,
  `Evaluator.ValuePropagatesErrors`, `Evaluator.JunkIrrelevant`) hold only under
  `BothOperands`. `Calculator.GuardDropsRightError` shows that propagation fails under
  `LeftOnly`.
- **The code and its own comment disagree.** The comment on line 105 says "If either lval is
  an error, return it". The code guarantees this only for the left operand and the
  accumulator: `FoldOps` keeps an error accumulator. The model follows the code, and
  "## Findings" records the difference.

## Model

| member | source | states |
|---|---|---|
| Values.EvalOp | prompt.c:103-120 | An error on the left is returned unchanged, for every operator and right operand. With a number on the left, the operator decides: `+`, `-` and `*` give the sum, difference and product with the right operand's `num`. `/` gives DIV_ZERO exactly when that `num` is 0, and otherwise the truncated quotient. Any other operator gives BAD_OP. Under the intended guard, an error on the right is returned. Every number produced is a `long`. |
| Values.IsOperator | prompt.c:110-113 | The operators `eval_op` recognises with `strcmp`: exactly the strings "+", "-", "*" and "/". These are also the four alternatives of the `operator` rule at line 161. |
| Values.StepNoOverflow | prompt.c:110-116 | One call of `eval_op` performs no signed overflow. It holds when the left operand is an error, or under the intended guard when the right one is. Otherwise the sum, difference, product or truncated quotient that the operator selects lies in [LONG_MIN, LONG_MAX]. |
| Values.TruncDiv | prompt.c:115 | C's `x.num / y.num`: the remainder is smaller than the divisor in magnitude, and is zero or has the dividend's sign. |
| Values.TruncQuotientUnique | prompt.c:115 | At most one integer is such a truncated quotient, so `TruncDiv` is exactly C's division. |
| Values.FoldOps | prompt.c:139-143 | The accumulator of the `while` loop: once it is an error it stays that same error to the end, and every number it holds is a `long`. |
| Values.FoldOpsSnoc | prompt.c:139-143 | The fold is a left fold: one more operand applies `eval_op` once more to the previous result. |
| Values.FoldPropagatesErrors | prompt.c:105-107 | Under the guard line 105 describes, an error anywhere among the operands makes the whole fold an error. |
| Values.FoldReturnsFirstError | prompt.c:105-107 | Under that guard the first error is returned unchanged. If the fold over the operands before k is still a number and operand k is an error, the whole fold is exactly that error. |
| Values.FoldPrefixNoOverflow | prompt.c:139-143 | A loop that does not overflow does not overflow on any prefix of its operands. |
| Values.FoldNeverBadOp | prompt.c:110-119 | With one of the four recognised operators, the fold is BAD_OP only if that error was already present. |
| Values.FoldIgnoresSlots | prompt.c:105-112 | The fold reads an operand only through its value and its `num` field. Under the intended guard, an error operand's unset field is never read. |
| Numerals.Strtol | prompt.c:127-128 | `strtol(s, NULL, 10)` on any text returns a `long` when it does not report ERANGE, and LONG_MAX or LONG_MIN when it does. On a numeral it reports ERANGE exactly when the numeral's value is not a `long`, returns that value otherwise, and clamps a positive overflow to LONG_MAX and a negative one to LONG_MIN. |
| Numerals.IsNumeral | prompt.c:160 | The `number` rule as a predicate on text: an optional minus sign followed by one or more decimal digits, with nothing else. |
| Numerals.DigitsOf | prompt.c:82 | The decimal digits of a magnitude denote it and have no leading zero. |
| Numerals.FormatLong | prompt.c:82 | The `%li` text of a `long` is a numeral of the grammar and denotes that number. It has a minus sign exactly when the number is negative, and no leading zeros. |
| Evaluator.EvalNumber | prompt.c:124-130 | A `number` leaf evaluates to its value when that is a `long`, and to BAD_NUM otherwise. |
| Render.ErrorMessage | prompt.c:83-93 | Each error code has its own fixed message, and each message starts with "Error: ". |
| Render.Print | prompt.c:79-95 | A number prints as a numeral that denotes it. An error prints as text that is not a numeral and starts with "Error: ". |
| Render.Println | prompt.c:98-101 | The output is exactly one line: the text of `lval_print`, whose characters are never a newline, followed by one newline as its last character. |
| Render.PrintHasNoNewline | prompt.c:79-95 | No text `lval_print` writes contains a newline: a number prints as a sign and digits, and each error message is a single line. |
| Render.PrintInjective | prompt.c:79-95 | Different values print differently: the printed text determines the value. |
| Render.PrintedNumberReadsBack | prompt.c:82 | The printed text of a `long`, read back by `strtol`, gives that `long` without ERANGE. |
| Ast.Contains | prompt.c:125 | `strstr(s, sub) != NULL` holds exactly when `sub` occurs somewhere in `s`. |
| Ast.RunEnd | prompt.c:139-143 | The loop starting at child 3 stops at the first child not tagged `expr`, and every child before it is tagged `expr`. |
| Ast.Abstract | prompt.c:132-143 | A walkable tree denotes its own contents as a numeral exactly when its tag contains "number". Otherwise it denotes the text of child 1 as operator, with as many further operands as the loop reads. Which operand is which is stated by `Grammar.AbstractHead` and `Grammar.AbstractOperand`. |
| Ast.Evaluable | prompt.c:124-143 | The trees on which `eval` stays in bounds and stops. A `number` leaf qualifies. So does a node with at least three children, so that the reads of children 1 and 2 at lines 133 and 136 exist, in which some child from index 3 on is not tagged `expr`, so that the loop at line 140 ends inside the array. Child 2 and every child the loop reads must be walkable in turn. |
| Grammar.AbstractHead | prompt.c:132-138 | The expression a non-number node denotes has child 1's text as operator and what child 2 denotes as first operand. It has one further operand for each child the loop reads. |
| Grammar.AbstractOperand | prompt.c:139-143 | Operand k + 1 of the expression a node denotes is what child k + 3 denotes. |
| Evaluator.Value | prompt.c:122-146 | The reference semantics: a numeral's conversion, or the left fold of the combiner over the operands' values. Every number it yields is a `long`. |
| Evaluator.Eval | prompt.c:122-146 | The recursive walk of `eval` on a walkable tree equals the value of the expression the tree denotes. |
| Evaluator.Loop | prompt.c:139-145 | The `while` loop from child i onward, with accumulator x, equals the fold of the combiner from x over the remaining operands. |
| Evaluator.ArgsAt | prompt.c:140-141 | Operand k reaches `eval_op` as its own value, together with the `num` field read at its position. |
| Evaluator.ValueNeverBadOp | prompt.c:110-119 | An expression whose operators are all among `+ - * /` never evaluates to BAD_OP. |
| Evaluator.ValuePropagatesErrors | prompt.c:105-107 | Under the intended guard, an application with an error among its operands evaluates to an error, and that error is the first one met from left to right, returned unchanged. An error first operand is the result. An error operand k is the result when the loop's accumulator before it is still a number. |
| Evaluator.JunkIrrelevant | prompt.c:105-107 | Under the intended guard, the value of an expression never depends on the unset `num` of an error. |
| Grammar.TagTests | prompt.c:160-163 | The two `strstr` tests on the tags mpc gives this grammar: only a `number` leaf contains "number". Operands contain "expr", while parentheses and anchors do not. |
| Grammar.NumberTree | prompt.c:160 | A tree of the `number` rule used as an operand: a leaf tagged `expr\|number\|regex` whose text is a numeral. |
| Grammar.OperatorTree | prompt.c:161 | A tree of the `operator` rule: a leaf tagged `operator\|char` whose text is one of `+ - * /`. |
| Grammar.Form | prompt.c:162-163 | The shape `open <operator> <expr>+ close` that the `expr` and `lsp` rules share. It is a node with the given tag and empty text, whose children are `open`, an operator leaf, one or more trees of the `expr` rule, and `close`. |
| Grammar.ExprTree | prompt.c:162 | The `expr` rule: a `number` leaf, or a node tagged `expr\|>` of the form `( <operator> <expr>+ )`. |
| Grammar.FormFacts | prompt.c:162-163 | A tree `open operator expr+ close` is walkable, and its loop stops exactly at the closing child. The expression it denotes has a recognised operator and well-formed operands. |
| Grammar.ExprTreeFacts | prompt.c:162 | Every tree of the `expr` rule is walkable, is tagged `expr`, and denotes a well-formed expression. |
| Grammar.LspTree | prompt.c:163 | Every tree of the `lsp` rule is walkable and denotes an application with well-formed operands. |
| Grammar.Concrete | prompt.c:162 | The tree mpc builds for an operand is tagged `expr`. |
| Grammar.ConcreteRoundTrip | prompt.c:160-162 | Every well-formed expression has a tree in the `expr` rule that denotes it again. |
| Grammar.ConcreteLineRoundTrip | prompt.c:163 | Every well-formed application has a tree in the `lsp` rule that denotes it again. |
| Grammar.AbstractRoundTrip | prompt.c:162 | Every tree of the `expr` rule is the tree built from what it denotes. |
| Grammar.AbstractLineRoundTrip | prompt.c:163 | Every tree of the `lsp` rule is the tree built from what it denotes. |
| Calculator.LineNeverBadOp | prompt.c:133-143 | On a line the grammar accepts, the reads of children 1, 2 and i stay in bounds, the loop stops, and the result is never BAD_OP. |
| Calculator.NumberOperand | prompt.c:124-130 | A `number` operand evaluates to its value when that is a `long`, and to BAD_NUM exactly when it is not. |
| Calculator.NumbersLine | prompt.c:133-145 | A line of `long` numerals is accepted by the grammar. It evaluates to the left fold of `eval_op` over those numbers, and it is defined exactly when that fold does not overflow. |
| Calculator.SubtractionFoldsLeft | prompt.c:139-143 | `- 10 1 2 3` is 4 on every platform and under either guard. |
| Calculator.DivisionTruncates | prompt.c:113-116 | `/ 7 -2` is -3, where Euclidean division would give -4. |
| Calculator.DivisionByZeroLine | prompt.c:113-116 | `/ 1 0` is the division-by-zero error. |
| Calculator.SingleOperand | prompt.c:136-145 | `- 5` is 5: with one operand the loop never runs, and the operator is ignored. |
| Calculator.PlatformRange | prompt.c:127-129 | The numeral 99999999999 is a number on LP64. On the 32-bit `_WIN32` platform it is BAD_NUM. |
| Calculator.GuardDropsRightError | prompt.c:105-107 | `+ 1 (/ 1 0)` is accepted by the grammar. As written it evaluates to 1 plus the never-set `num` of the DIV_ZERO operand. Under the guard the comment describes, it evaluates to DIV_ZERO. |

## Left out

- The text-level parser is not modelled. This covers mpc (`mpc_new`, `mpca_lang`, `mpc_parse`), whitespace handling and syntax-error messages. mpc is a foreign library; the grammar is stated as predicates on the trees it builds. The tags are assumed to be:
  - `>` for the root;
  - `expr|>` for a parenthesised operand;
  - `expr|number|regex` for a numeral operand;
  - `operator|char` for the operator;
  - `char` for a parenthesis;
  - `regex` with empty contents for the anchors `/^/` and `/$/`.
- The read-evaluate-print loop in `main` is not modelled. This covers the banner, `readline`/`add_history`, the `_WIN32` shim at lines 15-32, and `mpc_err_print`. It is terminal I/O and an endless loop. The `_WIN32` branch survives only as the `Llp64` range.
- Memory management (`malloc`, `free`, `mpc_ast_delete`, `mpc_cleanup`) has no behaviour to state.
- `printf` and `putchar` are not modelled as side effects. `Render` gives the text they would write.
- Signed overflow and `LONG_MIN / -1` are undefined behaviour in C. They are excluded by the `NoOverflow` family of preconditions rather than given a result.
- The integer encodings of LVAL_NUM/LVAL_ERR and of the three error codes are not modelled. They become datatype constructors. The unset `err` of a number is never read, so it is not modelled either.
- `Numerals.Strtol` models only base 10 in the "C" locale, without `endptr`. That is the only way `eval` calls it.
- `Evaluator.Eval` requires a walkable tree. On other trees `eval` reads past the children array, which is undefined behaviour. The grammar's trees are all walkable (`Grammar.ExprTreeFacts`, `Grammar.LspTree`).

## Findings

| source | as written | input that shows it | evidently intended | confidence | as-written member | corrected member |
|---|---|---|---|---|---|---|
| prompt.c:105-107 | Line 107 tests `x.type == LVAL_ERR` a second time. A right operand that is an error therefore reaches the arithmetic, which reads its never-set `num`. | `+ 1 (/ 1 0)`: the result is 1 plus an indeterminate `long`, not the division-by-zero error. | `if (y.type == LVAL_ERR) { return y; }`, as the comment on line 105 says. | high; not executed | Calculator.GuardDropsRightError | Evaluator.ValuePropagatesErrors |

The corrected guard is `Guard.BothOperands`. `Values.EvalOp` returns the right operand's error under it. `Values.FoldPropagatesErrors` and `Evaluator.ValuePropagatesErrors` prove that any error among the operands makes the result an error. `Values.FoldReturnsFirstError` and `Evaluator.ValuePropagatesErrors` prove that the result is the first such error, unchanged. `Evaluator.JunkIrrelevant` proves that no result depends on an unset field.

=== FILE: ast.dfy ===
/** The parse trees the evaluator walks (`mpc_ast_t`), the tag tests it makes
    on them, and the typed view of a walkable tree: a numeral, or an operator
    applied to one or more operands. */
module Ast {
  import opened Values
  import opened Numerals

  /** An mpc parse-tree node: the tag names the rules that produced it
      (`expr|number|regex`, `operator|char`, ...), `contents` is the text a
      leaf matched, `children` are the sub-trees in input order. */
  datatype Node = Node(tag: string, contents: string, children: seq<Node>)

  /** sub occurs in s starting at index i. */
  predicate OccursAt(s: string, sub: string, i: nat) {
    i + |sub| <= |s| && s[i..i + |sub|] == sub
  }

  /** `strstr(s, sub) != NULL`. */
  function Contains(s: string, sub: string): (b: bool)
    ensures b <==> exists i: nat :: OccursAt(s, sub, i)
    decreases |s|
  {
    if |s| < |sub| then false
    else if s[..|sub|] == sub then
      assert OccursAt(s, sub, 0);
      true
    else
      var b := Contains(s[1..], sub);
      assert forall i: nat :: OccursAt(s, sub, i + 1) <==> OccursAt(s[1..], sub, i) by {
        forall i: nat ensures OccursAt(s, sub, i + 1) <==> OccursAt(s[1..], sub, i) {
          if i + 1 + |sub| <= |s| {
            var u, v := s[i + 1..i + 1 + |sub|], s[1..][i..i + |sub|];
            assert |u| == |v| && forall j :: 0 <= j < |u| ==> u[j] == s[i + 1 + j] == v[j];
          }
        }
      }
      assert b ==> exists i: nat :: OccursAt(s, sub, i) by {
        if b {
          var i: nat :| OccursAt(s[1..], sub, i);
          assert OccursAt(s, sub, i + 1);
        }
      }
      assert (exists i: nat :: OccursAt(s, sub, i)) ==> b by {
        if i: nat :| OccursAt(s, sub, i) {
          assert i != 0;
          assert OccursAt(s[1..], sub, i - 1);
        }
      }
      b
  }

  /** The test at line 125: the node is a `number` leaf. */
  predicate IsNumberTag(t: Node) {
    Contains(t.tag, "number")
  }

  /** The test at line 140: the child is an operand. */
  predicate IsExprTag(t: Node) {
    Contains(t.tag, "expr")
  }

  /** Some child at or after index i is not tagged `expr`. */
  predicate Terminated(t: Node, i: nat) {
    exists k :: i <= k < |t.children| && !IsExprTag(t.children[k])
  }

  /** Where the loop of `eval` started at child i stops: the first child at
      or after i that is not tagged `expr`. */
  function RunEnd(t: Node, i: nat): (k: nat)
    requires Terminated(t, i)
    ensures i <= k < |t.children| && !IsExprTag(t.children[k])
    ensures forall j :: i <= j < k ==> IsExprTag(t.children[j])
    decreases |t.children| - i
  {
    if !IsExprTag(t.children[i]) then i else RunEnd(t, i + 1)
  }

  /** The trees `eval` can walk without indexing past the children array and
      without running its loop off the end: a `number` leaf, or a node with
      at least three children whose run of `expr` children from index 3 is
      ended by a child that is not one, and whose operands (child 2 and that
      run) are walkable in turn. */
  predicate Evaluable(t: Node)
    decreases t
  {
    || IsNumberTag(t)
    || (&& |t.children| >= 3
        && Terminated(t, 3)
        && Evaluable(t.children[2])
        && forall k :: 3 <= k < RunEnd(t, 3) ==> Evaluable(t.children[k]))
  }

  /** A walkable tree seen as an expression: the numeral of a `number` leaf,
      or the operator text of child 1 applied to child 2 and the run of
      operands after it. */
  datatype Expr = Number(text: string) | Apply(op: string, first: Expr, rest: seq<Expr>)

  /** Every operator is one of `+ - * /` and every numeral matches the
      `number` rule. */
  predicate WellFormed(e: Expr) {
    match e
    case Number(s) => IsNumeral(s)
    case Apply(op, first, rest) =>
      IsOperator(op) && WellFormed(first) && forall k :: 0 <= k < |rest| ==> WellFormed(rest[k])
  }

  /** The expression a walkable tree denotes. */
  function Abstract(t: Node): (e: Expr)
    requires Evaluable(t)
    ensures e.Number? <==> IsNumberTag(t)
    ensures e.Number? ==> e.text == t.contents
    ensures e.Apply? ==> e.op == t.children[1].contents && |e.rest| == RunEnd(t, 3) - 3
    decreases t
  {
    if IsNumberTag(t) then Number(t.contents)
    else
      var n := RunEnd(t, 3) - 3;
      Apply(t.children[1].contents, Abstract(t.children[2]),
            seq(n, k requires 0 <= k < n => Abstract(t.children[k + 3])))
  }
}

=== FILE: calculator.dfy ===
/** What holds of a whole input line once mpc has accepted it: the tree the
    `lsp` rule builds is one `eval` can walk, its operator is always
    recognised, and its value is the left fold of its operands. The worked
    lines at the end show the left-to-right fold, truncating division,
    division by zero, a lone operand, the platform's `long` range, and the
    right-operand error that the guard as written lets through. */
module Calculator {
  import opened Values
  import opened Numerals
  import opened Ast
  import opened Grammar
  import opened Evaluator

  /** The root of an input line sits at the empty path. */
  const Root: Path := []

  /** On a line the grammar accepts, `eval` walks the whole tree (every index
      read at lines 133, 136 and 140 is in bounds and the loop stops), and
      the result is never `BadOp`. */
  lemma LineNeverBadOp(lim: LongLimits, g: Guard, t: Node, junk: Junk)
    requires LspTree(t) && NoOverflow(lim, g, Abstract(t), Root, junk)
    ensures Eval(lim, g, t, Root, junk) != Err(BadOp)
  {
    ValueNeverBadOp(lim, g, Abstract(t), Root, junk);
  }

  /** A `number` operand evaluates to its value when that is a `long`, and
      to `BadNum` otherwise. */
  lemma NumberOperand(lim: LongLimits, g: Guard, t: Node, at: Path, junk: Junk)
    requires NumberTree(t)
    ensures ExprTree(t) && Evaluable(t) && NoOverflow(lim, g, Abstract(t), at, junk)
    ensures lim.Contains(NumeralValue(t.contents)) <==> Eval(lim, g, t, at, junk) == Num(NumeralValue(t.contents))
    ensures !lim.Contains(NumeralValue(t.contents)) <==> Eval(lim, g, t, at, junk) == Err(BadNum)
  {
    TagTests();
  }

  /** The expression `op n0 n1 ...` whose operands are numbers, each written
      as `%li` writes it. */
  function LineExpr(op: string, operands: seq<int>): (e: Expr)
    requires |operands| > 0
    ensures e.Apply? && e.op == op && |e.rest| == |operands| - 1
  {
    Apply(op, Number(FormatLong(operands[0])),
          seq(|operands| - 1, k requires 0 <= k < |operands| - 1 => Number(FormatLong(operands[k + 1]))))
  }

  /** The tree of the input line `op n0 n1 ...`. */
  function Line(op: string, operands: seq<int>): Node
    requires |operands| > 0
  {
    ConcreteLine(LineExpr(op, operands))
  }

  /** The operands after the first of a line of numbers, as the combiner
      receives them. */
  function NumberArgs(operands: seq<int>, junk: Junk): (ys: seq<Arg>)
    requires |operands| > 0
    ensures |ys| == |operands| - 1
  {
    seq(|operands| - 1, k requires 0 <= k < |operands| - 1 => Arg(Num(operands[k + 1]), junk(Root + [k + 3])))
  }

  /** A line whose operands are `long` numbers is accepted by the grammar,
      and evaluates to the left fold of the combiner over those numbers. */
  lemma NumbersLine(lim: LongLimits, g: Guard, op: string, operands: seq<int>, junk: Junk)
    requires |operands| > 0 && IsOperator(op)
    requires forall k :: 0 <= k < |operands| ==> lim.Contains(operands[k])
    ensures LspTree(Line(op, operands))
    ensures NoOverflow(lim, g, Abstract(Line(op, operands)), Root, junk)
            <==> FoldNoOverflow(lim, g, Num(operands[0]), op, NumberArgs(operands, junk))
    ensures NoOverflow(lim, g, Abstract(Line(op, operands)), Root, junk) ==>
      Eval(lim, g, Line(op, operands), Root, junk) == FoldOps(lim, g, Num(operands[0]), op, NumberArgs(operands, junk))
  {
    var e := LineExpr(op, operands);
    LineExprWellFormed(op, operands);
    ConcreteLineRoundTrip(e);
    NumbersOperands(lim, g, op, operands, junk);
  }

  lemma LineExprWellFormed(op: string, operands: seq<int>)
    requires |operands| > 0 && IsOperator(op)
    ensures WellFormed(LineExpr(op, operands))
  {
    var e := LineExpr(op, operands);
    forall k | 0 <= k < |e.rest| ensures WellFormed(e.rest[k]) {
      var s := FormatLong(operands[k + 1]);
      assert e.rest[k] == Number(s) && IsNumeral(s);
    }
    assert WellFormed(e.first) by {
      assert IsNumeral(FormatLong(operands[0]));
    }
  }

  /** The operands of a line of numbers evaluate to those numbers. */
  lemma NumbersOperands(lim: LongLimits, g: Guard, op: string, operands: seq<int>, junk: Junk)
    requires |operands| > 0
    requires forall k :: 0 <= k < |operands| ==> lim.Contains(operands[k])
    ensures var e := LineExpr(op, operands);
      && NoOverflow(lim, g, e.first, Root + [2], junk)
      && Value(lim, g, e.first, Root + [2], junk) == Num(operands[0])
      && RestNoOverflow(lim, g, e, 0, Root, junk)
      && Args(lim, g, e, 0, Root, junk) == NumberArgs(operands, junk)
  {
    var e := LineExpr(op, operands);
    assert e.first == Number(FormatLong(operands[0]));
    assert forall k :: 0 <= k < |e.rest| ==> e.rest[k] == Number(FormatLong(operands[k + 1]));
    NumberValue(lim, g, operands[0], Root + [2], junk);
    NumbersRestNoOverflow(lim, g, e, 0, junk);
    NumbersArgs(lim, g, e, operands, junk);
  }

  lemma NumbersArgs(lim: LongLimits, g: Guard, e: Expr, operands: seq<int>, junk: Junk)
    requires |operands| > 0 && forall k :: 0 <= k < |operands| ==> lim.Contains(operands[k])
    requires e.Apply? && |e.rest| == |operands| - 1
    requires forall k :: 0 <= k < |e.rest| ==> e.rest[k] == Number(FormatLong(operands[k + 1]))
    requires RestNoOverflow(lim, g, e, 0, Root, junk)
    ensures Args(lim, g, e, 0, Root, junk) == NumberArgs(operands, junk)
  {
    forall k: nat | k < |e.rest| ensures Args(lim, g, e, 0, Root, junk)[k] == NumberArgs(operands, junk)[k] {
      NumberArg(lim, g, e, operands[k + 1], junk, k);
    }
  }

  /** An operand that is the `%li` text of a `long` n reaches the combiner
      as n. */
  lemma NumberArg(lim: LongLimits, g: Guard, e: Expr, n: int, junk: Junk, k: nat)
    requires lim.Contains(n)
    requires e.Apply? && k < |e.rest| && e.rest[k] == Number(FormatLong(n))
    requires RestNoOverflow(lim, g, e, 0, Root, junk)
    ensures Args(lim, g, e, 0, Root, junk)[k] == Arg(Num(n), junk(Root + [k + 3]))
  {
    ArgAt(lim, g, e, 0, Root, junk, k);
    NumberValue(lim, g, n, Root + [k + 3], junk);
  }

  /** The `%li` text of a `long` evaluates to that `long`. */
  lemma NumberValue(lim: LongLimits, g: Guard, n: int, at: Path, junk: Junk)
    requires lim.Contains(n)
    ensures Value(lim, g, Number(FormatLong(n)), at, junk) == Num(n)
  {
  }

  lemma {:induction false} NumbersRestNoOverflow(lim: LongLimits, g: Guard, e: Expr, j: nat, junk: Junk)
    requires e.Apply? && j <= |e.rest| && forall k :: 0 <= k < |e.rest| ==> e.rest[k].Number?
    ensures RestNoOverflow(lim, g, e, j, Root, junk)
    decreases |e.rest| - j
  {
    if j < |e.rest| {
      NumbersRestNoOverflow(lim, g, e, j + 1, junk);
    }
  }

  /** `- 10 1 2 3` is ((10 - 1) - 2) - 3 = 4, whatever the platform and
      whichever guard: the fold associates to the left. */
  lemma SubtractionFoldsLeft(lim: LongLimits, g: Guard, junk: Junk)
    requires lim.Contains(10)
    ensures var t := Line("-", [10, 1, 2, 3]);
      LspTree(t) && NoOverflow(lim, g, Abstract(t), Root, junk) && Eval(lim, g, t, Root, junk) == Num(4)
  {
    var ys := NumberArgs([10, 1, 2, 3], junk);
    assert FoldNoOverflow(lim, g, Num(10), "-", ys) && FoldOps(lim, g, Num(10), "-", ys) == Num(4) by {
      assert ys == [Arg(Num(1), junk(Root + [3])), Arg(Num(2), junk(Root + [4])), Arg(Num(3), junk(Root + [5]))];
      SubtractionSteps(lim, g, ys);
    }
    NumbersLine(lim, g, "-", [10, 1, 2, 3], junk);
  }

  lemma SubtractionSteps(lim: LongLimits, g: Guard, ys: seq<Arg>)
    requires lim.Contains(10)
    requires |ys| == 3 && ys[0].value == Num(1) && ys[1].value == Num(2) && ys[2].value == Num(3)
    ensures FoldNoOverflow(lim, g, Num(10), "-", ys) && FoldOps(lim, g, Num(10), "-", ys) == Num(4)
  {
    var x1 := EvalOp(lim, g, Num(10), "-", ys[0]);
    assert x1 == Num(9);
    var x2 := EvalOp(lim, g, x1, "-", ys[1..][0]);
    assert x2 == Num(7);
    var x3 := EvalOp(lim, g, x2, "-", ys[1..][1..][0]);
    assert x3 == Num(4);
    assert FoldNoOverflow(lim, g, x3, "-", ys[1..][1..][1..]);
    assert FoldNoOverflow(lim, g, x2, "-", ys[1..][1..]);
    assert FoldNoOverflow(lim, g, x1, "-", ys[1..]);
    assert FoldOps(lim, g, x2, "-", ys[1..][1..]) == Num(4);
    assert FoldOps(lim, g, x1, "-", ys[1..]) == Num(4);
  }

  /** `/ 7 -2` is -3: C's division truncates toward zero, where Dafny's
      Euclidean division would give -4. */
  lemma DivisionTruncates(lim: LongLimits, g: Guard, junk: Junk)
    requires lim.Contains(7)
    ensures var t := Line("/", [7, -2]);
      LspTree(t) && NoOverflow(lim, g, Abstract(t), Root, junk) && Eval(lim, g, t, Root, junk) == Num(-3)
  {
    var ys := NumberArgs([7, -2], junk);
    assert FoldNoOverflow(lim, g, Num(7), "/", ys) && FoldOps(lim, g, Num(7), "/", ys) == Num(-3) by {
      assert ys == [Arg(Num(-2), junk(Root + [3]))];
      var q := TruncDiv(7, -2);
      assert q == -3 by {
        assert IsTruncQuotient(7, -2, -3);
        TruncQuotientUnique(7, -2, q, -3);
      }
      var x := EvalOp(lim, g, Num(7), "/", ys[0]);
      assert x == Num(-3);
      assert FoldNoOverflow(lim, g, x, "/", ys[1..]) && FoldOps(lim, g, x, "/", ys[1..]) == x;
    }
    NumbersLine(lim, g, "/", [7, -2], junk);
  }

  /** `/ 1 0` is the division-by-zero error. */
  lemma DivisionByZeroLine(lim: LongLimits, g: Guard, junk: Junk)
    ensures var t := Line("/", [1, 0]);
      LspTree(t) && NoOverflow(lim, g, Abstract(t), Root, junk) && Eval(lim, g, t, Root, junk) == Err(DivZero)
  {
    var ys := NumberArgs([1, 0], junk);
    assert FoldNoOverflow(lim, g, Num(1), "/", ys) && FoldOps(lim, g, Num(1), "/", ys) == Err(DivZero) by {
      assert ys == [Arg(Num(0), junk(Root + [3]))];
      var x := EvalOp(lim, g, Num(1), "/", ys[0]);
      assert x == Err(DivZero);
      assert FoldNoOverflow(lim, g, x, "/", ys[1..]) && FoldOps(lim, g, x, "/", ys[1..]) == x;
    }
    NumbersLine(lim, g, "/", [1, 0], junk);
  }

  /** `- 5` is 5: an operator applied to a single operand returns that
      operand, so `-` is never a negation. */
  lemma SingleOperand(lim: LongLimits, g: Guard, junk: Junk)
    requires lim.Contains(5)
    ensures var t := Line("-", [5]);
      LspTree(t) && NoOverflow(lim, g, Abstract(t), Root, junk) && Eval(lim, g, t, Root, junk) == Num(5)
  {
    assert NumberArgs([5], junk) == [];
    NumbersLine(lim, g, "-", [5], junk);
  }

  /** The numeral 99999999999 is a `long` on LP64 but not on the _WIN32
      branch, where it evaluates to the invalid-number error. */
  lemma PlatformRange()
    ensures EvalNumber(Lp64, "99999999999") == Num(99999999999)
    ensures EvalNumber(Llp64, "99999999999") == Err(BadNum)
  {
    var s := "99999999999";
    NinesValue(s);
    assert Pow10(|s|) == 100000000000;
    assert IsNumeral(s) && NumeralValue(s) == 99999999999;
  }

  function Pow10(k: nat): nat {
    if k == 0 then 1 else 10 * Pow10(k - 1)
  }

  /** A run of k nines denotes 10^k - 1. */
  lemma {:induction false} NinesValue(s: string)
    requires forall i :: 0 <= i < |s| ==> s[i] == '9'
    ensures AllDigits(s) && DigitsValue(s) == Pow10(|s|) - 1
  {
    if |s| > 0 {
      NinesValue(s[..|s| - 1]);
    }
  }

  /** The expression `+ 1 (/ 1 0)`: its second operand is an error. */
  const GuardWitness: Expr :=
    Apply("+", Number("1"), [Apply("/", Number("1"), [Number("0")])])

  /** Under the guard as written, `+ 1 (/ 1 0)` does not evaluate to the
      division-by-zero error of its operand: line 107 repeats the test of x,
      so the error operand's never-set `num` is added to 1 and the result is
      a number. Under the guard the comment at line 105 describes, the result
      is the error. */
  lemma GuardDropsRightError(lim: LongLimits, junk: Junk)
    requires lim.Contains(1 + junk(Root + [3]))
    ensures var t := ConcreteLine(GuardWitness);
      && LspTree(t)
      && NoOverflow(lim, LeftOnly, Abstract(t), Root, junk)
      && Eval(lim, LeftOnly, t, Root, junk) == Num(1 + junk(Root + [3]))
      && NoOverflow(lim, BothOperands, Abstract(t), Root, junk)
      && Eval(lim, BothOperands, t, Root, junk) == Err(DivZero)
  {
    var e := GuardWitness;
    assert WellFormed(e) by {
      assert IsNumeral("1") && IsNumeral("0");
    }
    ConcreteLineRoundTrip(e);
    WitnessValues(lim, LeftOnly, junk);
    WitnessValues(lim, BothOperands, junk);
  }

  lemma WitnessValues(lim: LongLimits, g: Guard, junk: Junk)
    requires lim.Contains(1 + junk(Root + [3]))
    ensures NoOverflow(lim, g, GuardWitness, Root, junk)
    ensures Value(lim, g, GuardWitness, Root, junk)
      == (if g == LeftOnly then Num(1 + junk(Root + [3])) else Err(DivZero))
  {
    var e := GuardWitness;
    SmallNumerals(lim);
    WitnessDivision(lim, g, junk);
    var ys := Args(lim, g, e, 0, Root, junk);
    assert ys == [Arg(Err(DivZero), junk(Root + [3]))];
    var x := EvalOp(lim, g, Num(1), "+", ys[0]);
    assert FoldOps(lim, g, x, "+", ys[1..]) == x;
  }

  /** The operand `(/ 1 0)` of the witness, at child 3 of the root. */
  lemma WitnessDivision(lim: LongLimits, g: Guard, junk: Junk)
    ensures NoOverflow(lim, g, GuardWitness.rest[0], Root + [3], junk)
    ensures Value(lim, g, GuardWitness.rest[0], Root + [3], junk) == Err(DivZero)
  {
    var d := GuardWitness.rest[0];
    SmallNumerals(lim);
    var ys := Args(lim, g, d, 0, Root + [3], junk);
    assert ys == [Arg(Num(0), junk(Root + [3] + [3]))];
    var x := EvalOp(lim, g, Num(1), "/", ys[0]);
    assert x == Err(DivZero);
    assert FoldNoOverflow(lim, g, x, "/", ys[1..]) && FoldOps(lim, g, x, "/", ys[1..]) == x;
  }

  lemma SmallNumerals(lim: LongLimits)
    ensures EvalNumber(lim, "1") == Num(1) && EvalNumber(lim, "0") == Num(0)
  {
    assert "1" == FormatLong(1) && "0" == FormatLong(0);
  }
}

=== FILE: evaluator.dfy ===
/** The evaluator: `eval` as the recursive walk over mpc trees it is in
    prompt.c (`Eval` and its loop `Loop`), and the meaning of an expression
    as a left fold of the combiner (`Value`). Every walk of a tree yields the
    value of the expression the tree denotes.

    An operand that evaluated to an error still has its `num` field read by
    the combiner under the guard as written. That field was never set, so
    the model reads it from `junk`, an arbitrary function of the operand's
    position in the tree: every property below holds for every `junk`. */
module Evaluator {
  import opened Values
  import opened Numerals
  import opened Ast

  /** The position of a node: the child indices on the way from the root. */
  type Path = seq<nat>

  /** The indeterminate `num` of the error value computed at each position. */
  type Junk = Path -> int

  /** The `number` branch of `eval` (lines 125-129): convert with `strtol`,
      and report ERANGE as `BadNum`. */
  function EvalNumber(lim: LongLimits, text: string): (r: Lval)
    ensures r.Num? ==> lim.Contains(r.n)
    ensures r.Err? ==> r.kind == BadNum
    ensures IsNumeral(text) ==>
      && (lim.Contains(NumeralValue(text)) ==> r == Num(NumeralValue(text)))
      && (!lim.Contains(NumeralValue(text)) ==> r == Err(BadNum))
  {
    var c := Strtol(lim, text);
    if c.outOfRange then Err(BadNum) else Num(c.value)
  }

  /** No combiner step anywhere in e overflows, e standing at path `at`.
      Operand 0 of an application is child 2 of its node, operand j + 1 is
      child j + 3. */
  predicate NoOverflow(lim: LongLimits, g: Guard, e: Expr, at: Path, junk: Junk)
    decreases e, 2, 0
  {
    match e
    case Number(_) => true
    case Apply(op, first, rest) =>
      && NoOverflow(lim, g, first, at + [2], junk)
      && RestNoOverflow(lim, g, e, 0, at, junk)
      && FoldNoOverflow(lim, g, Value(lim, g, first, at + [2], junk), op, Args(lim, g, e, 0, at, junk))
  }

  /** No step inside the operands e.rest[j..] overflows. */
  predicate RestNoOverflow(lim: LongLimits, g: Guard, e: Expr, j: nat, at: Path, junk: Junk)
    requires e.Apply? && j <= |e.rest|
    decreases e, 0, |e.rest| - j
  {
    j == |e.rest| ||
    (NoOverflow(lim, g, e.rest[j], at + [j + 3], junk) && RestNoOverflow(lim, g, e, j + 1, at, junk))
  }

  /** The value of an expression: a numeral converted by `strtol`, or the
      left fold of the combiner over the operands' values. */
  function Value(lim: LongLimits, g: Guard, e: Expr, at: Path, junk: Junk): (r: Lval)
    requires NoOverflow(lim, g, e, at, junk)
    ensures r.Num? ==> lim.Contains(r.n)
    decreases e, 3, 0
  {
    match e
    case Number(s) => EvalNumber(lim, s)
    case Apply(op, first, _) =>
      FoldOps(lim, g, Value(lim, g, first, at + [2], junk), op, Args(lim, g, e, 0, at, junk))
  }

  /** The operands e.rest[j..] as the combiner receives them. */
  function Args(lim: LongLimits, g: Guard, e: Expr, j: nat, at: Path, junk: Junk): (ys: seq<Arg>)
    requires e.Apply? && j <= |e.rest| && RestNoOverflow(lim, g, e, j, at, junk)
    ensures |ys| == |e.rest| - j
    decreases e, 1, |e.rest| - j
  {
    if j == |e.rest| then []
    else
      var p := at + [j + 3];
      [Arg(Value(lim, g, e.rest[j], p, junk), junk(p))] + Args(lim, g, e, j + 1, at, junk)
  }

  /** `eval` (lines 122-146) on the tree t at path `at`: a `number` leaf is
      converted; any other node takes its operator from child 1, evaluates
      child 2, and folds the combiner over the following children while they
      are tagged `expr`. */
  function Eval(lim: LongLimits, g: Guard, t: Node, at: Path, junk: Junk): (r: Lval)
    requires Evaluable(t) && NoOverflow(lim, g, Abstract(t), at, junk)
    ensures r == Value(lim, g, Abstract(t), at, junk)
    decreases t, 1, 0
  {
    if IsNumberTag(t) then EvalNumber(lim, t.contents)
    else
      var x := Eval(lim, g, t.children[2], at + [2], junk);
      Loop(lim, g, t, 3, x, at, junk)
  }

  /** The `while` loop at lines 139-143 from child i on, with accumulator
      acc. */
  function Loop(lim: LongLimits, g: Guard, t: Node, i: nat, acc: Lval, at: Path, junk: Junk): (r: Lval)
    requires Evaluable(t) && !IsNumberTag(t) && 3 <= i <= RunEnd(t, 3)
    requires RestNoOverflow(lim, g, Abstract(t), i - 3, at, junk)
    requires FoldNoOverflow(lim, g, acc, t.children[1].contents, Args(lim, g, Abstract(t), i - 3, at, junk))
    ensures r == FoldOps(lim, g, acc, t.children[1].contents, Args(lim, g, Abstract(t), i - 3, at, junk))
    decreases t, 0, |t.children| - i
  {
    if !IsExprTag(t.children[i]) then acc
    else
      var y := Eval(lim, g, t.children[i], at + [i], junk);
      Loop(lim, g, t, i + 1, EvalOp(lim, g, acc, t.children[1].contents, Arg(y, junk(at + [i]))), at, junk)
  }

  /** Operand j + 1 of an application reaches the combiner as its value
      together with the indeterminate `num` read at its position. */
  lemma {:induction false} ArgsAt(lim: LongLimits, g: Guard, e: Expr, j: nat, at: Path, junk: Junk)
    requires e.Apply? && j <= |e.rest| && RestNoOverflow(lim, g, e, j, at, junk)
    ensures forall k :: j <= k < |e.rest| ==> NoOverflow(lim, g, e.rest[k], at + [k + 3], junk)
    ensures forall k :: j <= k < |e.rest| ==>
      Args(lim, g, e, j, at, junk)[k - j] == Arg(Value(lim, g, e.rest[k], at + [k + 3], junk), junk(at + [k + 3]))
    decreases |e.rest| - j
  {
    if j < |e.rest| {
      ArgsAt(lim, g, e, j + 1, at, junk);
    }
  }

  /** `ArgsAt` for the one operand k. */
  lemma {:induction false} ArgAt(lim: LongLimits, g: Guard, e: Expr, j: nat, at: Path, junk: Junk, k: nat)
    requires e.Apply? && j <= k < |e.rest| && RestNoOverflow(lim, g, e, j, at, junk)
    ensures NoOverflow(lim, g, e.rest[k], at + [k + 3], junk)
    ensures Args(lim, g, e, j, at, junk)[k - j] == Arg(Value(lim, g, e.rest[k], at + [k + 3], junk), junk(at + [k + 3]))
    decreases k - j
  {
    if j < k {
      ArgAt(lim, g, e, j + 1, at, junk, k);
    }
  }

  /** Under the grammar's operators no evaluation yields `BadOp`. */
  lemma {:induction false} ValueNeverBadOp(lim: LongLimits, g: Guard, e: Expr, at: Path, junk: Junk)
    requires WellFormed(e) && NoOverflow(lim, g, e, at, junk)
    ensures Value(lim, g, e, at, junk) != Err(BadOp)
    decreases e
  {
    match e
    case Number(_) =>
    case Apply(op, first, rest) =>
      ValueNeverBadOp(lim, g, first, at + [2], junk);
      ArgsAt(lim, g, e, 0, at, junk);
      var ys := Args(lim, g, e, 0, at, junk);
      forall k | 0 <= k < |ys| ensures ys[k].value != Err(BadOp) {
        ValueNeverBadOp(lim, g, rest[k], at + [k + 3], junk);
      }
      FoldNeverBadOp(lim, g, Value(lim, g, first, at + [2], junk), op, ys);
  }

  /** With the intended guard, an application whose operands include an error
      is an error: by induction, an error anywhere in a tree is an error at
      its root. More precisely, the first error met from left to right is
      the result unchanged: an error first operand is returned, and an error
      operand k is returned when the loop's accumulator before it is still a
      number. */
  lemma ValuePropagatesErrors(lim: LongLimits, e: Expr, at: Path, junk: Junk)
    requires e.Apply? && NoOverflow(lim, BothOperands, e, at, junk)
    ensures forall k :: 0 <= k < |e.rest| ==> NoOverflow(lim, BothOperands, e.rest[k], at + [k + 3], junk)
    ensures (|| Value(lim, BothOperands, e.first, at + [2], junk).Err?
             || exists k :: 0 <= k < |e.rest| && Value(lim, BothOperands, e.rest[k], at + [k + 3], junk).Err?)
            ==> Value(lim, BothOperands, e, at, junk).Err?
    ensures Value(lim, BothOperands, e.first, at + [2], junk).Err? ==>
      Value(lim, BothOperands, e, at, junk) == Value(lim, BothOperands, e.first, at + [2], junk)
    ensures forall k :: 0 <= k <= |e.rest| ==>
      FoldNoOverflow(lim, BothOperands, Value(lim, BothOperands, e.first, at + [2], junk), e.op,
                     Args(lim, BothOperands, e, 0, at, junk)[..k])
    ensures forall k ::
      (&& 0 <= k < |e.rest|
       && Value(lim, BothOperands, e.rest[k], at + [k + 3], junk).Err?
       && FoldOps(lim, BothOperands, Value(lim, BothOperands, e.first, at + [2], junk), e.op,
                  Args(lim, BothOperands, e, 0, at, junk)[..k]).Num?)
      ==> Value(lim, BothOperands, e, at, junk) == Value(lim, BothOperands, e.rest[k], at + [k + 3], junk)
  {
    ArgsAt(lim, BothOperands, e, 0, at, junk);
    var ys := Args(lim, BothOperands, e, 0, at, junk);
    var x := Value(lim, BothOperands, e.first, at + [2], junk);
    forall k | 0 <= k <= |e.rest| ensures FoldNoOverflow(lim, BothOperands, x, e.op, ys[..k]) {
      FoldPrefixNoOverflow(lim, BothOperands, x, e.op, ys, k);
    }
    forall k |
      && 0 <= k < |e.rest|
      && Value(lim, BothOperands, e.rest[k], at + [k + 3], junk).Err?
      && FoldOps(lim, BothOperands, x, e.op, ys[..k]).Num?
      ensures Value(lim, BothOperands, e, at, junk) == Value(lim, BothOperands, e.rest[k], at + [k + 3], junk)
    {
      FoldReturnsFirstError(lim, x, e.op, ys, k);
    }
    if exists k :: 0 <= k < |e.rest| && Value(lim, BothOperands, e.rest[k], at + [k + 3], junk).Err? {
      var k :| 0 <= k < |e.rest| && Value(lim, BothOperands, e.rest[k], at + [k + 3], junk).Err?;
      assert ys[k].value.Err?;
      FoldPropagatesErrors(lim, x, e.op, ys);
    } else if x.Err? {
      FoldPropagatesErrors(lim, x, e.op, ys);
    }
  }

  /** With the intended guard the value of an expression does not depend on
      the never-set `num` fields of its error operands. */
  lemma {:induction false} JunkIrrelevant(lim: LongLimits, e: Expr, at: Path, junk1: Junk, junk2: Junk)
    requires NoOverflow(lim, BothOperands, e, at, junk1)
    ensures NoOverflow(lim, BothOperands, e, at, junk2)
    ensures Value(lim, BothOperands, e, at, junk2) == Value(lim, BothOperands, e, at, junk1)
    decreases e, 1
  {
    match e
    case Number(_) =>
    case Apply(op, first, rest) =>
      JunkIrrelevant(lim, first, at + [2], junk1, junk2);
      ArgsJunkIrrelevant(lim, e, 0, at, junk1, junk2);
      ArgsAt(lim, BothOperands, e, 0, at, junk1);
      ArgsAt(lim, BothOperands, e, 0, at, junk2);
      var ys, zs := Args(lim, BothOperands, e, 0, at, junk1), Args(lim, BothOperands, e, 0, at, junk2);
      forall k | 0 <= k < |ys| ensures ys[k].value == zs[k].value {
        assert ys[k].value == Value(lim, BothOperands, rest[k], at + [k + 3], junk1);
      }
      FoldIgnoresSlots(lim, BothOperands, Value(lim, BothOperands, first, at + [2], junk1), op, ys, zs);
  }

  lemma {:induction false} ArgsJunkIrrelevant(lim: LongLimits, e: Expr, j: nat, at: Path, junk1: Junk, junk2: Junk)
    requires e.Apply? && j <= |e.rest| && RestNoOverflow(lim, BothOperands, e, j, at, junk1)
    ensures RestNoOverflow(lim, BothOperands, e, j, at, junk2)
    ensures forall k :: j <= k < |e.rest| ==>
      && NoOverflow(lim, BothOperands, e.rest[k], at + [k + 3], junk1)
      && NoOverflow(lim, BothOperands, e.rest[k], at + [k + 3], junk2)
      && Value(lim, BothOperands, e.rest[k], at + [k + 3], junk2) == Value(lim, BothOperands, e.rest[k], at + [k + 3], junk1)
    decreases e, 0, |e.rest| - j
  {
    if j < |e.rest| {
      JunkIrrelevant(lim, e.rest[j], at + [j + 3], junk1, junk2);
      ArgsJunkIrrelevant(lim, e, j + 1, at, junk1, junk2);
    }
  }
}

=== FILE: grammar.dfy ===
/** The grammar handed to `mpca_lang` (prompt.c lines 160-163), stated as
    predicates on the trees mpc builds for it. A numeral is an optional minus
    sign followed by one or more decimal digits; an operator is one of the
    four characters `+ - * /`; an operand is a numeral, or an operator and
    one or more operands inside parentheses; a whole line is an operator and
    one or more operands between the start and end anchors, with no
    parentheses around them.

    A tree's tag lists the rules that produced it: a numeral operand is a
    leaf tagged `expr|number|regex`, a parenthesised operand a node tagged
    `expr|>`, an operator a leaf tagged `operator|char`, a parenthesis a leaf
    tagged `char`, the anchors /^/ and /$/ empty leaves tagged `regex`, and
    the root of a whole input line is tagged `>`. The top level has no
    parentheses while a nested `expr` needs them; both are kept as written. */
module Grammar {
  import opened Values
  import opened Numerals
  import opened Ast

  const RootTag := ">"
  const ExprTag := "expr|>"
  const NumberTag := "expr|number|regex"
  const OperatorTag := "operator|char"
  const CharTag := "char"
  const RegexTag := "regex"

  const Open := Node(CharTag, "(", [])
  const Close := Node(CharTag, ")", [])
  /** /^/ and /$/ match the empty string. */
  const Anchor := Node(RegexTag, "", [])

  /** What the two tag tests of `eval` answer on each tag mpc gives this
      grammar's trees. */
  lemma TagTests()
    ensures Contains(NumberTag, "number") && Contains(NumberTag, "expr")
    ensures Contains(ExprTag, "expr") && !Contains(ExprTag, "number")
    ensures !Contains(RootTag, "number")
    ensures !Contains(CharTag, "expr") && !Contains(RegexTag, "expr")
  {
    // Positive answers: the occurrence. Negative answers: the first window
    // differs and the recursive search on the rest fails, unfolded by hand
    // for the two short tags.
    assert OccursAt(NumberTag, "number", 5);
    assert OccursAt(NumberTag, "expr", 0);
    assert OccursAt(ExprTag, "expr", 0);
    assert CharTag[..4] != "expr" && !Contains(CharTag[1..], "expr");
    assert RegexTag[1..][..4][1] != "expr"[1];
    assert |RegexTag[1..][1..]| < 4;
    assert RegexTag[..4] != "expr" && !Contains(RegexTag[1..], "expr");
    assert ExprTag[..6] != "number" && !Contains(ExprTag[1..], "number");
  }

  /** An `operator` leaf. */
  predicate OperatorTree(t: Node) {
    t.tag == OperatorTag && IsOperator(t.contents) && t.children == []
  }

  /** A `number` operand leaf. */
  predicate NumberTree(t: Node) {
    t.tag == NumberTag && IsNumeral(t.contents) && t.children == []
  }

  /** `open <operator> <expr>+ close` under a node tagged `tag`: the shape of
      a parenthesised `expr` and of the top-level `lsp` alike. */
  predicate Form(t: Node, tag: string, open: Node, close: Node)
    decreases t, 0
  {
    var ch := t.children;
    && t.tag == tag && t.contents == "" && |ch| >= 4
    && ch[0] == open && OperatorTree(ch[1])
    && (forall k :: 2 <= k < |ch| - 1 ==> ExprTree(ch[k]))
    && ch[|ch| - 1] == close
  }

  /** The `expr` rule: a `number` leaf or a parenthesised application. */
  predicate ExprTree(t: Node)
    decreases t, 1
  {
    NumberTree(t) || Form(t, ExprTag, Open, Close)
  }

  /** The `lsp` rule: the root of a whole input line. Every such tree is one
      `eval` can walk, and denotes a well-formed application. */
  predicate LspTree(t: Node): (b: bool)
    ensures b ==> Evaluable(t) && Abstract(t).Apply? && WellFormed(Abstract(t))
  {
    if Form(t, RootTag, Anchor, Anchor) then
      TagTests();
      FormFacts(t, RootTag, Anchor, Anchor);
      true
    else false
  }

  /** Every tree of the `expr` rule is one `eval` can walk, is tagged `expr`,
      and denotes a well-formed expression. */
  lemma {:induction false} ExprTreeFacts(t: Node)
    requires ExprTree(t)
    ensures Evaluable(t) && IsExprTag(t) && WellFormed(Abstract(t))
    decreases t, 1
  {
    TagTests();
    if !NumberTree(t) {
      FormFacts(t, ExprTag, Open, Close);
    }
  }

  /** A tree of the shape `open <operator> <expr>+ close` is one `eval` can
      walk; its loop stops exactly at the closing child, and it denotes a
      well-formed application. */
  lemma {:induction false} FormFacts(t: Node, tag: string, open: Node, close: Node)
    requires !Contains(tag, "number") && !Contains(close.tag, "expr")
    requires Form(t, tag, open, close)
    ensures Evaluable(t) && !IsNumberTag(t) && RunEnd(t, 3) == |t.children| - 1
    ensures WellFormed(Abstract(t))
    decreases t, 0
  {
    var ch := t.children;
    forall k | 2 <= k < |ch| - 1 ensures Evaluable(ch[k]) && IsExprTag(ch[k]) && WellFormed(Abstract(ch[k])) {
      ExprTreeFacts(ch[k]);
    }
    assert !IsExprTag(ch[|ch| - 1]);
    assert Terminated(t, 3);
    assert RunEnd(t, 3) == |ch| - 1;
    assert Evaluable(t);
    var e := Abstract(t);
    assert forall k :: 0 <= k < |e.rest| ==> e.rest[k] == Abstract(ch[k + 3]);
  }

  /** The children of an application's node between `open` and `close`. */
  function Parts(e: Expr): (ch: seq<Node>)
    requires e.Apply?
    ensures |ch| == |e.rest| + 2
    decreases e, 0
  {
    [Node(OperatorTag, e.op, []), Concrete(e.first)]
      + seq(|e.rest|, k requires 0 <= k < |e.rest| => Concrete(e.rest[k]))
  }

  /** The tree mpc builds for an operand. */
  function Concrete(e: Expr): (t: Node)
    ensures IsExprTag(t)
    decreases e, 1
  {
    TagTests();
    match e
    case Number(s) => Node(NumberTag, s, [])
    case Apply(_, _, _) => Node(ExprTag, "", [Open] + Parts(e) + [Close])
  }

  /** The tree mpc builds for a whole input line. */
  function ConcreteLine(e: Expr): Node
    requires e.Apply?
  {
    Node(RootTag, "", [Anchor] + Parts(e) + [Anchor])
  }

  /** Every well-formed expression has a tree in the grammar, and that tree
      denotes it again. */
  lemma {:induction false} ConcreteRoundTrip(e: Expr)
    requires WellFormed(e)
    ensures ExprTree(Concrete(e)) && Evaluable(Concrete(e)) && Abstract(Concrete(e)) == e
    decreases e, 1
  {
    TagTests();
    if e.Apply? {
      FormRoundTrip(e, ExprTag, Open, Close);
    }
  }

  /** Every well-formed application is the meaning of a whole input line. */
  lemma ConcreteLineRoundTrip(e: Expr)
    requires WellFormed(e) && e.Apply?
    ensures LspTree(ConcreteLine(e)) && Abstract(ConcreteLine(e)) == e
  {
    TagTests();
    FormRoundTrip(e, RootTag, Anchor, Anchor);
  }

  lemma {:induction false} FormRoundTrip(e: Expr, tag: string, open: Node, close: Node)
    requires WellFormed(e) && e.Apply?
    requires !Contains(tag, "number") && !Contains(close.tag, "expr")
    ensures var t := Node(tag, "", [open] + Parts(e) + [close]);
      Form(t, tag, open, close) && Evaluable(t) && Abstract(t) == e
    decreases e, 0
  {
    ConcreteRoundTrip(e.first);
    forall k | 0 <= k < |e.rest| {
      ConcreteRoundTrip(e.rest[k]);
    }
    FormOfParts(e, tag, open, close);
    FormFacts(Node(tag, "", [open] + Parts(e) + [close]), tag, open, close);
    AbstractOfParts(e, tag, open, close);
  }

  /** The node built from an application is in the grammar when the trees
      built from its operands are. */
  lemma FormOfParts(e: Expr, tag: string, open: Node, close: Node)
    requires WellFormed(e) && e.Apply?
    requires ExprTree(Concrete(e.first)) && forall k :: 0 <= k < |e.rest| ==> ExprTree(Concrete(e.rest[k]))
    ensures Form(Node(tag, "", [open] + Parts(e) + [close]), tag, open, close)
  {
    var ch := [open] + Parts(e) + [close];
    FormChildren(e, tag, open, close);
    assert forall k :: 2 <= k < |ch| - 1 ==> ExprTree(ch[k]);
  }

  /** The node built from an application denotes it when the trees built
      from its operands denote them. */
  lemma AbstractOfParts(e: Expr, tag: string, open: Node, close: Node)
    requires e.Apply?
    requires var t := Node(tag, "", [open] + Parts(e) + [close]);
      Evaluable(t) && !IsNumberTag(t) && RunEnd(t, 3) == |t.children| - 1
    requires Evaluable(Concrete(e.first)) && Abstract(Concrete(e.first)) == e.first
    requires forall k :: 0 <= k < |e.rest| ==>
      Evaluable(Concrete(e.rest[k])) && Abstract(Concrete(e.rest[k])) == e.rest[k]
    ensures Abstract(Node(tag, "", [open] + Parts(e) + [close])) == e
  {
    var t := Node(tag, "", [open] + Parts(e) + [close]);
    FormChildren(e, tag, open, close);
    AbstractOfChildren(t, e);
  }

  /** A walkable node whose operator is e's and whose operand children
      denote e's operands denotes e. */
  lemma AbstractOfChildren(t: Node, e: Expr)
    requires e.Apply? && Evaluable(t) && !IsNumberTag(t)
    requires RunEnd(t, 3) == |t.children| - 1 && |t.children| == |e.rest| + 4
    requires t.children[1].contents == e.op && Abstract(t.children[2]) == e.first
    requires forall k :: 0 <= k < |e.rest| ==> Abstract(t.children[k + 3]) == e.rest[k]
    ensures Abstract(t) == e
  {
    var a := Abstract(t);
    forall k | 0 <= k < |a.rest| ensures a.rest[k] == e.rest[k] {
      AbstractOperand(t, k);
    }
  }

  /** Operand k + 1 of the expression a node denotes is what child k + 3
      denotes. */
  lemma AbstractOperand(t: Node, k: nat)
    requires Evaluable(t) && !IsNumberTag(t) && k < RunEnd(t, 3) - 3
    ensures Abstract(t).rest[k] == Abstract(t.children[k + 3])
  {
    var n := RunEnd(t, 3) - 3;
    assert Abstract(t).rest == seq(n, j requires 0 <= j < n => Abstract(t.children[j + 3]));
  }

  /** The children of the node built for an application, one by one. */
  lemma FormChildren(e: Expr, tag: string, open: Node, close: Node)
    requires e.Apply?
    ensures var ch := [open] + Parts(e) + [close];
      && |ch| == |e.rest| + 4
      && ch[0] == open && ch[1] == Node(OperatorTag, e.op, []) && ch[2] == Concrete(e.first)
      && (forall k :: 3 <= k < |ch| - 1 ==> ch[k] == Concrete(e.rest[k - 3]))
      && ch[|ch| - 1] == close
  {
    var p := Parts(e);
    var ch := [open] + p + [close];
    assert ch[1] == p[0] && ch[2] == p[1];
    forall k | 3 <= k < |ch| - 1 ensures ch[k] == Concrete(e.rest[k - 3]) {
      assert ch[k] == p[k - 1];
    }
  }

  /** Every tree of the `expr` rule is the one built from what it denotes:
      the grammar's trees and the well-formed expressions correspond one to
      one. */
  lemma {:induction false} AbstractRoundTrip(t: Node)
    requires ExprTree(t)
    ensures Evaluable(t) && Concrete(Abstract(t)) == t
    decreases t, 1
  {
    TagTests();
    ExprTreeFacts(t);
    if !NumberTree(t) {
      FormAbstractRoundTrip(t, ExprTag, Open, Close);
    }
  }

  /** Every tree of the `lsp` rule is the one built from what it denotes. */
  lemma AbstractLineRoundTrip(t: Node)
    requires LspTree(t)
    ensures ConcreteLine(Abstract(t)) == t
  {
    TagTests();
    FormAbstractRoundTrip(t, RootTag, Anchor, Anchor);
  }

  lemma {:induction false} FormAbstractRoundTrip(t: Node, tag: string, open: Node, close: Node)
    requires !Contains(tag, "number") && !Contains(close.tag, "expr")
    requires Form(t, tag, open, close)
    ensures Evaluable(t) && Node(tag, "", [open] + Parts(Abstract(t)) + [close]) == t
    decreases t, 0
  {
    FormFacts(t, tag, open, close);
    var ch := t.children;
    var e := Abstract(t);
    AbstractHead(t);
    AbstractRoundTrip(ch[2]);
    forall k | 0 <= k < |e.rest| ensures Concrete(e.rest[k]) == ch[k + 3] {
      AbstractOperand(t, k);
      AbstractRoundTrip(ch[k + 3]);
    }
    PartsOfChildren(ch, open, close, e);
  }

  /** The operator and first operand of the expression a node denotes, and
      how many more operands it has. */
  lemma AbstractHead(t: Node)
    requires Evaluable(t) && !IsNumberTag(t)
    ensures var e := Abstract(t);
      && e.Apply? && e.op == t.children[1].contents && e.first == Abstract(t.children[2])
      && |e.rest| == RunEnd(t, 3) - 3
  {
  }

  /** Children that are `open`, an operator leaf, the trees of an
      application's operands and `close` are the ones built from it. */
  lemma PartsOfChildren(ch: seq<Node>, open: Node, close: Node, e: Expr)
    requires |ch| >= 4 && ch[0] == open && OperatorTree(ch[1]) && ch[|ch| - 1] == close
    requires e.Apply? && e.op == ch[1].contents && |e.rest| == |ch| - 4
    requires Concrete(e.first) == ch[2]
    requires forall k :: 0 <= k < |e.rest| ==> Concrete(e.rest[k]) == ch[k + 3]
    ensures [open] + Parts(e) + [close] == ch
  {
    var ch' := [open] + Parts(e) + [close];
    FormChildren(e, "", open, close);
    assert |ch'| == |ch|;
    forall k | 0 <= k < |ch| ensures ch'[k] == ch[k] {
      if 3 <= k < |ch| - 1 {
        assert ch'[k] == Concrete(e.rest[k - 3]);
      }
    }
  }
}

=== FILE: numerals.dfy ===
/** Decimal text and `long` values: the `number` token of the grammar, the
    conversion `strtol(s, NULL, 10)` that reads it (section 7.20.1.4 of
    ISO/IEC 9899:1999), and the text `printf("%li", n)` writes. */
module Numerals {
  import opened Values

  predicate IsDigit(c: char) {
    '0' <= c <= '9'
  }

  predicate AllDigits(s: string) {
    forall i :: 0 <= i < |s| ==> IsDigit(s[i])
  }

  /** The text the `number` rule accepts: an optional minus sign, then one or
      more decimal digits. */
  predicate IsNumeral(s: string) {
    if |s| > 0 && s[0] == '-' then |s| > 1 && AllDigits(s[1..])
    else |s| > 0 && AllDigits(s)
  }

  function DigitValue(c: char): nat
    requires IsDigit(c)
  {
    c as int - '0' as int
  }

  function DigitChar(d: nat): (c: char)
    requires d < 10
    ensures IsDigit(c) && DigitValue(c) == d
  {
    ('0' as int + d) as char
  }

  /** The number a string of digits denotes in base 10, most significant
      digit first. */
  function DigitsValue(s: string): nat
    requires AllDigits(s)
    decreases |s|
  {
    if |s| == 0 then 0 else DigitsValue(s[..|s| - 1]) * 10 + DigitValue(s[|s| - 1])
  }

  /** The integer a numeral denotes. */
  function NumeralValue(s: string): int
    requires IsNumeral(s)
  {
    if s[0] == '-' then -(DigitsValue(s[1..]) as int) else DigitsValue(s)
  }

  /** `isspace` in the "C" locale: space, \t, \n, \v, \f and \r. */
  predicate IsSpace(c: char) {
    c == ' ' || 9 <= c as int <= 13
  }

  /** The first index at or after i that does not hold white space. */
  function SkipSpace(s: string, i: nat): (j: nat)
    requires i <= |s|
    ensures i <= j <= |s|
    ensures j < |s| ==> !IsSpace(s[j])
    ensures forall k :: i <= k < j ==> IsSpace(s[k])
    decreases |s| - i
  {
    if i < |s| && IsSpace(s[i]) then SkipSpace(s, i + 1) else i
  }

  /** The end of the run of digits that starts at i. */
  function DigitRunEnd(s: string, i: nat): (j: nat)
    requires i <= |s|
    ensures i <= j <= |s|
    ensures j < |s| ==> !IsDigit(s[j])
    ensures forall k :: i <= k < j ==> IsDigit(s[k])
    decreases |s| - i
  {
    if i < |s| && IsDigit(s[i]) then DigitRunEnd(s, i + 1) else i
  }

  /** What `strtol(s, NULL, 10)` returns, and whether it set `errno` to
      ERANGE. */
  datatype Conversion = Conversion(value: int, outOfRange: bool)

  /** `strtol` in base 10: skip white space, take an optional sign and the
      longest run of digits after it. Without digits nothing is converted
      and the result is 0. A value outside the `long` range is clamped to
      LONG_MAX or LONG_MIN and reported as ERANGE. */
  function Strtol(lim: LongLimits, s: string): (c: Conversion)
    ensures !c.outOfRange ==> lim.Contains(c.value)
    ensures c.outOfRange ==> c.value == lim.max || c.value == lim.min
    // on a numeral: its value when that is a `long`, ERANGE otherwise
    ensures IsNumeral(s) ==>
      && (c.outOfRange <==> !lim.Contains(NumeralValue(s)))
      && (!c.outOfRange ==> c.value == NumeralValue(s))
      // a positive overflow clamps to LONG_MAX, a negative one to LONG_MIN
      && (c.outOfRange ==> (c.value == lim.max <==> NumeralValue(s) > 0))
  {
    var i := SkipSpace(s, 0);
    var neg := i < |s| && s[i] == '-';
    var j := if i < |s| && (s[i] == '-' || s[i] == '+') then i + 1 else i;
    var k := DigitRunEnd(s, j);
    NumeralRun(s);
    if k == j then Conversion(0, false)
    else
      var m: int := if neg then -(DigitsValue(s[j..k]) as int) else DigitsValue(s[j..k]);
      if m > lim.max then Conversion(lim.max, true)
      else if m < lim.min then Conversion(lim.min, true)
      else Conversion(m, false)
  }

  /** On a numeral `Strtol` skips no white space and its run of digits
      reaches the end of the text. */
  lemma NumeralRun(s: string)
    ensures IsNumeral(s) ==>
      var j := if s[0] == '-' then 1 else 0;
      && SkipSpace(s, 0) == 0
      && DigitRunEnd(s, j) == |s|
      && s[j..|s|] == (if s[0] == '-' then s[1..] else s)
  {
    if IsNumeral(s) && s[0] == '-' {
      assert forall k :: 1 <= k < |s| ==> s[k] == s[1..][k - 1];
    }
  }

  /** The decimal digits of n, without leading zeros ("0" for zero). */
  function DigitsOf(n: nat): (s: string)
    ensures |s| > 0 && AllDigits(s)
    ensures DigitsValue(s) == n
    ensures |s| > 1 ==> s[0] != '0'
    decreases n
  {
    if n < 10 then [DigitChar(n)]
    else
      var s := DigitsOf(n / 10) + [DigitChar(n % 10)];
      assert s[..|s| - 1] == DigitsOf(n / 10);
      s
  }

  /** The text `printf("%li", n)` writes: a minus sign for a negative n, then
      the decimal digits of its magnitude. */
  function FormatLong(n: int): (s: string)
    ensures IsNumeral(s) && NumeralValue(s) == n
    ensures s[0] == '-' <==> n < 0
    // no leading zeros: the only numeral for zero is "0"
    ensures var d := if n < 0 then s[1..] else s; |d| > 1 ==> d[0] != '0'
  {
    if n < 0 then
      var s := "-" + DigitsOf(-n);
      assert s[1..] == DigitsOf(-n);
      s
    else DigitsOf(n)
  }
}

=== FILE: render.dfy ===
/** The text `lval_print` and `lval_println` write for a value: the signed
    decimal of a number, or one fixed message per error code. */
module Render {
  import opened Values
  import opened Numerals

  /** The message printed for each error code. */
  function ErrorMessage(k: ErrKind): (s: string)
    ensures |s| > 7 && s[..7] == "Error: "
  {
    match k
    case DivZero => "Error: Division by zero"
    case BadOp => "Error: Invalid operator"
    case BadNum => "Error: Invalid number"
  }

  /** `lval_print`: `%li` for a number, the error's message for an error. */
  function Print(v: Lval): (s: string)
    ensures v.Num? ==> IsNumeral(s) && NumeralValue(s) == v.n
    ensures v.Err? ==> !IsNumeral(s) && |s| > 7 && s[..7] == "Error: "
  {
    match v
    case Num(n) => FormatLong(n)
    case Err(k) => ErrorMessage(k)
  }

  /** `lval_println`: the same text followed by a newline, so the output is
      exactly one line. */
  function Println(v: Lval): (s: string)
    ensures |s| > 0 && s[|s| - 1] == '\n' && s[..|s| - 1] == Print(v)
    ensures forall i :: 0 <= i < |s| - 1 ==> s[i] != '\n'
  {
    PrintHasNoNewline(v);
    Print(v) + "\n"
  }

  /** The text `lval_print` writes never contains a newline: a numeral is a
      sign and digits, and the three messages are single lines. */
  lemma PrintHasNoNewline(v: Lval)
    ensures forall i :: 0 <= i < |Print(v)| ==> Print(v)[i] != '\n'
  {
    match v
    case Num(n) => NumeralHasNoNewline(Print(v));
    case Err(k) => MessageHasNoNewline(k);
  }

  lemma {:induction false} NumeralHasNoNewline(s: string)
    requires IsNumeral(s)
    ensures forall i :: 0 <= i < |s| ==> s[i] != '\n'
  {
    forall i | 0 <= i < |s| ensures s[i] != '\n' {
      if s[0] == '-' && i > 0 {
        assert s[i] == s[1..][i - 1];
      }
    }
  }

  lemma MessageHasNoNewline(k: ErrKind)
    ensures forall i :: 0 <= i < |ErrorMessage(k)| ==> ErrorMessage(k)[i] != '\n'
  {
  }

  /** Different values print differently: the printed text determines the
      value. */
  lemma {:induction false} PrintInjective(v: Lval, w: Lval)
    requires Print(v) == Print(w)
    ensures v == w
  {
    match v
    case Num(n) =>
      assert w.Num? && NumeralValue(Print(v)) == w.n;
    case Err(k) =>
      assert w.Err?;
      assert ErrorMessage(k)[7] == ErrorMessage(w.kind)[7];
      assert ErrorMessage(k)[9] == ErrorMessage(w.kind)[9];
  }

  /** A printed number reads back as itself: `strtol` on the text `%li`
      writes for a `long` gives that `long` without ERANGE. */
  lemma PrintedNumberReadsBack(lim: LongLimits, n: int)
    requires lim.Contains(n)
    ensures Strtol(lim, Print(Num(n))) == Conversion(n, false)
  {
  }
}

=== FILE: values.dfy ===
/** The calculator's value type (`lval` in prompt.c) and the binary combiner
    `eval_op`, together with the left fold the evaluator builds from it.

    C's `long` is modelled as an unbounded `int` together with the platform's
    [LONG_MIN, LONG_MAX]. Signed overflow is undefined behaviour in C, so the
    combiner is given no result for it: `StepNoOverflow` is its precondition. */
module Values {

  /** The three error codes LERR_DIV_ZERO, LERR_BAD_OP and LERR_BAD_NUM. */
  datatype ErrKind = DivZero | BadOp | BadNum

  /** An `lval`: a number (LVAL_NUM, built by `lval_num`) or an error
      (LVAL_ERR, built by `lval_err`). */
  datatype Lval = Num(n: int) | Err(kind: ErrKind)

  /** The range of C's `long` on one platform. */
  datatype LongRange = LongRange(min: int, max: int) {
    predicate Contains(v: int) {
      min <= v <= max
    }
  }

  /** A two's complement `long`: LONG_MIN == -LONG_MAX - 1 < 0 < LONG_MAX. */
  type LongLimits = r: LongRange | r.min < 0 < r.max && r.min == -r.max - 1
    witness LongRange(-0x8000_0000, 0x7FFF_FFFF)

  /** `long` on Linux and Mac (LP64): 64 bits. */
  const Lp64: LongLimits := LongRange(-0x8000_0000_0000_0000, 0x7FFF_FFFF_FFFF_FFFF)

  /** `long` on the _WIN32 branch (LLP64): 32 bits. */
  const Llp64: LongLimits := LongRange(-0x8000_0000, 0x7FFF_FFFF)

  function Abs(a: int): nat {
    if a < 0 then -a else a
  }

  /** q is the quotient of a by b truncated toward zero: the remainder a - q*b
      is smaller than b in magnitude and is zero or has the sign of a
      (section 6.5.5 of ISO/IEC 9899:1999). */
  predicate IsTruncQuotient(a: int, b: int, q: int) {
    var rem := a - q * b;
    Abs(rem) < Abs(b) && (rem == 0 || (rem < 0 <==> a < 0))
  }

  /** C's integer `/`. Dafny's `/` is Euclidean, so the magnitudes are divided
      and the sign is put back. */
  function TruncDiv(a: int, b: int): (q: int)
    requires b != 0
    ensures IsTruncQuotient(a, b, q)
  {
    var m := Abs(a) / Abs(b);
    var r := Abs(a) % Abs(b);
    assert Abs(a) == m * Abs(b) + r;
    if (a < 0) == (b < 0) then
      assert a - m * b == (if a < 0 then -r else r);
      m
    else
      assert a - (-m) * b == (if a < 0 then -r else r);
      -m
  }

  /** At most one integer is a truncated quotient, so `TruncDiv` is C's `/`
      and not merely some quotient. */
  lemma TruncQuotientUnique(a: int, b: int, q1: int, q2: int)
    requires b != 0
    requires IsTruncQuotient(a, b, q1) && IsTruncQuotient(a, b, q2)
    ensures q1 == q2
  {
    var r1 := a - q1 * b;
    var r2 := a - q2 * b;
    assert r1 - r2 == (q2 - q1) * b;
    if q1 != q2 {
      AbsProductAtLeast(q2 - q1, b);
      assert false;
    }
  }

  lemma AbsProductAtLeast(k: int, b: int)
    requires k != 0
    ensures Abs(k * b) >= Abs(b)
  {
    var m: int, c: int := Abs(k), Abs(b);
    if k < 0 && b < 0 {
      assert k * b == m * c;
    } else if k < 0 {
      assert k * b == -(m * c);
    } else if b < 0 {
      assert k * b == -(m * c);
    } else {
      assert k * b == m * c;
    }
    assert m * c == (m - 1) * c + c;
    assert (m - 1) * c >= 0;
  }

  /** The four operator symbols the combiner recognises with `strcmp`. */
  predicate IsOperator(op: string) {
    op == "+" || op == "-" || op == "*" || op == "/"
  }

  /** Which operands the error guard at the head of `eval_op` tests:
      `LeftOnly` is the code as written (line 107 tests the left operand a
      second time), `BothOperands` is what its comment describes. */
  datatype Guard = LeftOnly | BothOperands

  /** An operand as `eval_op` receives it: its value, and the `long` held in
      its `num` field. For a number that field is the number. `lval_err`
      never sets it, so for an error `slot` is an indeterminate value. */
  datatype Arg = Arg(value: Lval, slot: int) {
    /** What `y.num` reads. */
    function NumField(): int {
      if value.Num? then value.n else slot
    }
  }

  /** `eval_op(x, op, y)` performs no signed overflow: no sum, difference,
      product or quotient it computes leaves [LONG_MIN, LONG_MAX]. */
  predicate StepNoOverflow(lim: LongLimits, g: Guard, x: Lval, op: string, y: Arg) {
    || x.Err?
    || (g == BothOperands && y.value.Err?)
    || (var b := y.NumField();
        && (op == "+" ==> lim.Contains(x.n + b))
        && (op == "-" ==> lim.Contains(x.n - b))
        && (op == "*" ==> lim.Contains(x.n * b))
        && (op == "/" && b != 0 ==> lim.Contains(TruncDiv(x.n, b))))
  }

  /** `eval_op`: combine the accumulator x with the operand y under op. */
  function EvalOp(lim: LongLimits, g: Guard, x: Lval, op: string, y: Arg): (r: Lval)
    requires StepNoOverflow(lim, g, x, op, y)
    // an error on the left is returned unchanged, whatever op and y are
    ensures x.Err? ==> r == x
    // with the intended guard, an error on the right is returned too
    ensures g == BothOperands && x.Num? && y.value.Err? ==> r == y.value
    // otherwise the operator decides, reading y's num field even if y is an error
    ensures x.Num? && (g == LeftOnly || y.value.Num?) ==>
      var b := y.NumField();
      && (op == "+" ==> r == Num(x.n + b))
      && (op == "-" ==> r == Num(x.n - b))
      && (op == "*" ==> r == Num(x.n * b))
      && (op == "/" ==> (r == Err(DivZero) <==> b == 0))
      && (op == "/" && b != 0 ==> r.Num? && IsTruncQuotient(x.n, b, r.n))
      && (!IsOperator(op) ==> r == Err(BadOp))
    ensures r.Num? ==> lim.Contains(r.n)
  {
    if x.Err? then x
    else if g == BothOperands && y.value.Err? then y.value
    else if op == "+" then Num(x.n + y.NumField())
    else if op == "-" then Num(x.n - y.NumField())
    else if op == "*" then Num(x.n * y.NumField())
    else if op == "/" then
      if y.NumField() == 0 then Err(DivZero) else Num(TruncDiv(x.n, y.NumField()))
    else Err(BadOp)
  }

  /** No step of the left fold of `EvalOp` over ys overflows. */
  predicate FoldNoOverflow(lim: LongLimits, g: Guard, x: Lval, op: string, ys: seq<Arg>)
    decreases |ys|
  {
    || |ys| == 0
    || (&& StepNoOverflow(lim, g, x, op, ys[0])
        && FoldNoOverflow(lim, g, EvalOp(lim, g, x, op, ys[0]), op, ys[1..]))
  }

  /** The left fold ((x op y1) op y2) ... op yk that the loop of `eval`
      computes. */
  function FoldOps(lim: LongLimits, g: Guard, x: Lval, op: string, ys: seq<Arg>): (r: Lval)
    requires FoldNoOverflow(lim, g, x, op, ys)
    // once the accumulator is an error it is the result
    ensures x.Err? ==> r == x
    // every number the fold produces is a `long`
    ensures (x.Num? ==> lim.Contains(x.n)) ==> (r.Num? ==> lim.Contains(r.n))
    decreases |ys|
  {
    if |ys| == 0 then x
    else FoldOps(lim, g, EvalOp(lim, g, x, op, ys[0]), op, ys[1..])
  }

  /** `FoldOps` associates to the left: folding one more operand applies the
      combiner once more to the previous result. */
  lemma {:induction false} FoldOpsSnoc(lim: LongLimits, g: Guard, x: Lval, op: string, ys: seq<Arg>, y: Arg)
    requires FoldNoOverflow(lim, g, x, op, ys + [y])
    ensures FoldNoOverflow(lim, g, x, op, ys)
    ensures StepNoOverflow(lim, g, FoldOps(lim, g, x, op, ys), op, y)
    ensures FoldOps(lim, g, x, op, ys + [y]) == EvalOp(lim, g, FoldOps(lim, g, x, op, ys), op, y)
    decreases |ys|
  {
    if |ys| > 0 {
      assert (ys + [y])[0] == ys[0];
      assert (ys + [y])[1..] == ys[1..] + [y];
      FoldOpsSnoc(lim, g, EvalOp(lim, g, x, op, ys[0]), op, ys[1..], y);
    }
  }

  /** With the intended guard an error anywhere among the operands makes the
      whole fold an error. */
  lemma {:induction false} FoldPropagatesErrors(lim: LongLimits, x: Lval, op: string, ys: seq<Arg>)
    requires FoldNoOverflow(lim, BothOperands, x, op, ys)
    requires x.Err? || exists k :: 0 <= k < |ys| && ys[k].value.Err?
    ensures FoldOps(lim, BothOperands, x, op, ys).Err?
    decreases |ys|
  {
    if |ys| > 0 && !x.Err? {
      var x' := EvalOp(lim, BothOperands, x, op, ys[0]);
      if !x'.Err? {
        var k :| 0 <= k < |ys| && ys[k].value.Err?;
        assert k != 0;
        assert ys[1..][k - 1].value.Err?;
      }
      FoldPropagatesErrors(lim, x', op, ys[1..]);
    }
  }

  /** With the intended guard the first error is the result unchanged: when
      the fold over the operands before k is still a number and operand k is
      an error, the whole fold is that error. */
  lemma {:induction false} FoldReturnsFirstError(lim: LongLimits, x: Lval, op: string, ys: seq<Arg>, k: nat)
    requires FoldNoOverflow(lim, BothOperands, x, op, ys)
    requires k < |ys| && ys[k].value.Err?
    requires FoldNoOverflow(lim, BothOperands, x, op, ys[..k])
    requires FoldOps(lim, BothOperands, x, op, ys[..k]).Num?
    ensures FoldOps(lim, BothOperands, x, op, ys) == ys[k].value
    decreases k
  {
    if k > 0 {
      var x' := EvalOp(lim, BothOperands, x, op, ys[0]);
      assert ys[..k][0] == ys[0];
      assert ys[..k][1..] == ys[1..][..k - 1];
      FoldReturnsFirstError(lim, x', op, ys[1..], k - 1);
    }
  }

  /** A fold that does not overflow does not overflow on any prefix. */
  lemma {:induction false} FoldPrefixNoOverflow(lim: LongLimits, g: Guard, x: Lval, op: string, ys: seq<Arg>, k: nat)
    requires FoldNoOverflow(lim, g, x, op, ys) && k <= |ys|
    ensures FoldNoOverflow(lim, g, x, op, ys[..k])
    decreases k
  {
    if k > 0 {
      assert ys[..k][0] == ys[0];
      assert ys[..k][1..] == ys[1..][..k - 1];
      FoldPrefixNoOverflow(lim, g, EvalOp(lim, g, x, op, ys[0]), op, ys[1..], k - 1);
    }
  }

  /** A recognised operator never yields `BadOp`: the fold is `Err(BadOp)`
      only if that error was already there to propagate. */
  lemma {:induction false} FoldNeverBadOp(lim: LongLimits, g: Guard, x: Lval, op: string, ys: seq<Arg>)
    requires FoldNoOverflow(lim, g, x, op, ys)
    requires IsOperator(op) && x != Err(BadOp)
    requires g == BothOperands ==> forall k :: 0 <= k < |ys| ==> ys[k].value != Err(BadOp)
    ensures FoldOps(lim, g, x, op, ys) != Err(BadOp)
    decreases |ys|
  {
    if |ys| > 0 {
      assert ys[0].value != Err(BadOp) || g == LeftOnly;
      FoldNeverBadOp(lim, g, EvalOp(lim, g, x, op, ys[0]), op, ys[1..]);
    }
  }

  /** The combiner reads an operand's `num` field only through `NumField`:
      folds over operands with the same values and the same fields agree.
      With the intended guard an error operand's field is never read, so
      its value alone decides. */
  lemma {:induction false} FoldIgnoresSlots(lim: LongLimits, g: Guard, x: Lval, op: string, ys: seq<Arg>, zs: seq<Arg>)
    requires |ys| == |zs| && FoldNoOverflow(lim, g, x, op, ys)
    requires forall k :: 0 <= k < |ys| ==>
      ys[k].value == zs[k].value && (g == BothOperands || ys[k].NumField() == zs[k].NumField())
    ensures FoldNoOverflow(lim, g, x, op, zs) && FoldOps(lim, g, x, op, zs) == FoldOps(lim, g, x, op, ys)
    decreases |ys|
  {
    if |ys| > 0 {
      assert ys[0].value == zs[0].value;
      assert EvalOp(lim, g, x, op, zs[0]) == EvalOp(lim, g, x, op, ys[0]);
      FoldIgnoresSlots(lim, g, EvalOp(lim, g, x, op, ys[0]), op, ys[1..], zs[1..]);
    }
  }
}
